=== FILE: README.md ===
# Two-router slot arbitration (DCF simulator) in Dafny

This project models the core of a slotted simulator in which two wireless
routers contend for one medium with CSMA/CA binary exponential backoff.
The simulator exists in two protocol variants, and each has its own
`Simulation.start_simulation` loop:

- `simulation_vcs.py` is the RTS/CTS (virtual carrier sense) variant.
  An unset backoff is the sentinel -1. The loser of a contested slot is
  credited with the winner's backoff. A successful exchange costs
  DIFS + backoff + RTS + SIFS + CTS + SIFS + tx_slots + SIFS + ACK.
- `simulation.py` is the basic-access variant. An unset backoff is the
  sentinel 0, so a drawn 0 is drawn again. A success costs exactly what a
  collision costs. The loser's backoff is reduced by the winner's value
  only after that value has been reset to 0, so it is never reduced. The
  collision counters live on the `Simulation` object and are never reset
  between rates.

In each loop iteration the routers first draw backoffs where needed. Then
exactly one branch runs:

- **collision**: both routers are ready and their backoffs are equal;
- **win**: both are ready and one backoff is smaller;
- **single router**: only one router is ready;
- **idle**: neither router is ready.

The loop runs while the clock is below `simulation_slots` (the horizon).
In `simulation_vcs.py` that is `round(10 / 10e-6)`, so 1_000_000. In
`simulation.py` it is the unrounded float quotient, which is just above
1_000_000 because `10*10**(-6)` evaluates slightly below 1e-5. So the
loop still runs at clock 1_000_000, and the model's integer horizon for
that variant is 1_000_001.

## Layout

- `contention.dfy` (module `Contention`) holds what both variants share:
  the raised errors, the contention window `cw_base * 2^extension`, the
  random backoff draw, the `Router` and loop `State`, the branch
  classification, the fairness division and the throughput formula.
- `traffic.dfy` (module `Traffic`) holds the cumulative sum that turns
  inter-arrival gaps into a schedule, and its inverse.
- `rts_cts.dfy` and `rts_cts_props.dfy` (modules `RtsCts`,
  `RtsCtsProperties`) model `simulation_vcs.py` and prove facts about
  whole runs of it.
- `basic_access.dfy` and `basic_access_props.dfy` (modules `BasicAccess`,
  `BasicAccessProperties`) do the same for `simulation.py`.

## How inputs are modelled

- **Random source.** Backoff draws come from a stream `rng: nat -> nat`.
  The k-th draw for window w is `rng(k) % w`. `State.drawn` counts the
  stream values used so far. For any in-range backoffs wanted in an
  iteration, some stream yields exactly those
  (`RtsCtsProperties.AnyDrawsPossible`, `BasicAccessProperties.AnyDrawsPossible`).
  So every sequence of draws `np.random.randint` can return is the
  sequence of some stream.
- **The 64-bit draw range.** On a platform whose default numpy integer is
  64-bit, `np.random.randint(0, high)` returns a signed 64-bit integer and
  raises `ValueError` when `high - 1` does not fit,
  that is when `high > 2^63` (`Contention.MaxHigh`). The window
  `cw_base * 2**extension` is an unbounded Python integer. So with
  `cw_base = 4`, the first draw after 62 consecutive collisions raises.
  Where the default integer is 32-bit the bound is `2^31` instead and the
  draw raises from extension 30 on; the model does not cover that platform.
- **Arrival schedules.** A schedule is an integer sequence. Inter-arrival
  gaps, already rounded up to whole slots, are a `seq<nat>`.
- **Errors.** Python exceptions become `Result` values. An `IndexError`
  comes from reading a schedule past its end; every path of the loop body
  reads both routers' next arrival. A `ValueError` comes from a draw whose
  window is too wide. The draws come before the reads in each iteration,
  so when both would fail the draw's `ValueError` is raised. A
  `ZeroDivisionError` comes from the fairness ratio when router 2 sent
  nothing.
- **Parameters.** The class constants are a `Params` value per variant,
  and `Defaults` holds the values in the code. `Params.Valid` asks for
  three things, all of which the constants satisfy:
  - `cw_base >= 1`, because `randint` needs a non-empty range;
  - `DIFS >= 1`, so every branch moves the clock forward and the loop ends;
  - `simulation_time >= 1`, the divisor of the throughput.

## Behaviour worth knowing

- `cw_max` is never read. The window outgrows any cap
  (`Contention.WindowUncapped`), and once it is wider than `cw_max` a
  router can draw a backoff of `cw_max` or more (`DrawsPastCwMax` in both
  property modules).
- The window doubles with every consecutive collision until the draw
  raises `ValueError`. With `cw_base = 4` that happens at extension 62
  (`Contention.DrawOverflowsAt62`).
- A backoff with no value is a sentinel integer: -1 in `simulation_vcs.py`
  and 0 in `simulation.py`. In `simulation.py` a drawn 0 therefore looks
  unset and is drawn again.
- In `simulation.py` the loser's backoff is reduced by the winner's
  backoff after that has been reset to 0, so the loser's backoff never
  changes.
- In `simulation.py` a success costs DIFS + backoff + SIFS + ACK, with no
  time for the data frame.
- `simulation.py` does not pad its schedules. A run can therefore read
  past one: `BasicAccessProperties.SimulateOverrunsShortSchedule` shows
  this on a generated schedule.
- Fairness is `successes₁ / successes₂`. It raises `ZeroDivisionError`
  when router 2 sent nothing.
- A single-router success leaves the extension unchanged. In the RTS/CTS
  variant this is harmless: a positive extension implies both routers are
  ready (`RtsCtsProperties.ExtensionMeansContention`).

## Model

| member | source | states |
|---|---|---|
| Contention.Window | simulation_vcs.py:24-25 | the draw range after `extension` collisions is never narrower than `cw_base` |
| Contention.WindowDoubles | simulation_vcs.py:24-25 | every collision doubles the contention window |
| Contention.WindowUncapped | simulation_vcs.py:13-25 | `cw_max` is never applied: with at least `cap` consecutive collisions the window exceeds any `cap` |
| Contention.Draw | simulation_vcs.py:25 | `randint(0, window)` raises ValueError exactly when window > 2^63. Otherwise the backoff lies in [0, window - 1] |
| Contention.GenerateBackoff | simulation_vcs.py:24-25 | raises ValueError exactly when cw_base·2^extension > 2^63. Otherwise a fresh backoff lies in [0, cw_base·2^extension - 1], whatever `cw_max` is; simulation.py:46 draws the same way |
| Contention.DrawOverflowsAt62 | simulation_vcs.py:13-25 | with `cw_base = 4` the window exceeds the 64-bit draw range exactly when the extension is at least 62 |
| Contention.ScriptedDraws | simulation_vcs.py:25 | a stream scripted with in-range values yields exactly those values as draws |
| Contention.SentWithinCount | simulation_vcs.py:91-93 | a router whose sent packets all arrived before the horizon has sent at most as many packets as its schedule has arrivals before the horizon |
| Contention.Fairness | simulation_vcs.py:102 | the fairness ratio times successes₂ equals successes₁. It is 1 exactly when both are equal. It raises ZeroDivisionError exactly when successes₂ = 0 |
| Contention.Throughput | simulation_vcs.py:99-100 | throughput × simulation_time = successes × packet bits, and throughput is never negative |
| Traffic.CumSum | simulation_vcs.py:124-126 | the schedule keeps one entry per gap. Its first entry is the first gap, each later entry exceeds the previous one by its gap, and it is non-decreasing and non-negative |
| Traffic.GapsOfCumSum | simulation_vcs.py:124-126 | taking differences of the cumulative sum gives back the gaps |
| Traffic.CumSumOfGaps | simulation.py:109-111 | every non-decreasing, non-negative sequence is the cumulative sum of its differences |
| RtsCts.TransmissionCost | simulation_vcs.py:27-28 | a success costs a collision's cost plus 2·SIFS + tx_slots + ACK, and at least one slot |
| RtsCts.Redraw | simulation_vcs.py:51-54 | a router draws when its backoff is negative or the extension is non-zero. It raises ValueError exactly when some router draws and the window exceeds 2^63. Otherwise each draw lands in the window and an undrawn backoff is kept. Both backoffs are ≥ 0 afterwards. Router 1's draw is the one at stream position `drawn` and router 2's is the next unread one, and nothing else changes |
| RtsCts.Step | simulation_vcs.py:50-89 | raises exactly when a draw overflows or a cursor is past its schedule. The draw's ValueError comes first, then IndexError. The clock strictly grows, and at most one cursor passes one packet that had arrived. The stream position is the one the draws left. Collision: +1 collision, +1 extension, both routers exactly as drawn (cursors and equal backoffs kept), clock + DIFS+b+RTS+SIFS+CTS with b the drawn backoff. Win: the winner's cursor +1 and backoff -1, the loser's backoff drops by the winner's to a value > 0, extension 0. Single router: its cursor +1 and backoff -1, with the other router, the extension and the collisions untouched. Idle: clock + 1 and nothing else |
| RtsCts.Run | simulation_vcs.py:49-89 | the loop stops with the clock at or past the horizon. It keeps both schedules, never moves a cursor back, never lowers the collision count, and keeps every cursor within its schedule. It can raise only IndexError or ValueError |
| RtsCts.Start | simulation_vcs.py:37-47 | two fresh routers (cursor 0, backoff -1), with counters at 0 and the clock at the smaller first arrival. IndexError exactly when a schedule is empty |
| RtsCts.Metrics | simulation_vcs.py:91-102 | successes are the final cursors. Throughputs are successes × packet_size / simulation_time, and fairness is successes₁ / successes₂. ZeroDivisionError exactly when successes₂ = 0 |
| RtsCts.Simulate | simulation_vcs.py:37-102 | an empty schedule raises IndexError. Otherwise the loop's exception is passed on, or the metrics of its final state are reported. A report has 0 < successes₂ ≤ arrivals₂ and successes₁ ≤ arrivals₁ |
| RtsCts.GenerateTraffic | simulation_vcs.py:118-131 | the real entries are a schedule whose gaps are the sampled gaps. They are followed by as many entries equal to the horizon |
| RtsCtsProperties.CollisionWidensWindow | simulation_vcs.py:51-62 | after a collision both routers draw again from a window twice as wide |
| RtsCtsProperties.StepKeepsExtensionNeedsBoth | simulation_vcs.py:57-89 | an iteration keeps "a positive extension implies both routers are ready" |
| RtsCtsProperties.ExtensionMeansContention | simulation_vcs.py:57-89 | under that invariant, a positive extension forces a collision or a contested win |
| RtsCtsProperties.RunKeepsExtensionNeedsBoth | simulation_vcs.py:49-89 | the invariant holds through the whole loop |
| RtsCtsProperties.RunStaysInPaddedSchedules | simulation_vcs.py:49-89 | on schedules padded at the horizon from index n on, the loop never raises IndexError, so only a draw can raise (ValueError). A finished run has no cursor past n |
| RtsCtsProperties.RunSendsOnlyBeforeHorizon | simulation_vcs.py:49-89 | every packet the loop sends arrived before the horizon |
| RtsCtsProperties.SimulateOnPaddedSchedules | simulation_vcs.py:37-102 | a trial on padded schedules never raises IndexError; it can raise only ValueError from a draw or ZeroDivisionError. Each router's successes are at most its unpadded entries and at most its arrivals before the horizon |
| RtsCtsProperties.GeneratedTrafficIsPadded | simulation_vcs.py:118-131 | with rate ≥ 1 the generated schedule has at least one real entry, and every entry after the real ones equals the horizon |
| RtsCtsProperties.SimulateOnGeneratedTraffic | simulation_vcs.py:118-131 | on generated traffic with rate ≥ 1, a trial never raises IndexError (only ValueError from a draw or ZeroDivisionError), and successes never exceed the real arrivals |
| RtsCtsProperties.DrawOverflowsAfter62Collisions | simulation_vcs.py:51-54 | with the code's constants an iteration raises ValueError exactly when the extension, the count of consecutive collisions, is at least 62 |
| RtsCtsProperties.AnyDrawsPossible | simulation_vcs.py:51-54 | for any backoffs inside the window, some stream makes the routers that draw get exactly those, router 1 first |
| RtsCtsProperties.DrawsPastCwMax | simulation_vcs.py:13-25 | once the window is wider than `cw_max` (and within the 64-bit range), some stream makes both routers draw a backoff ≥ `cw_max` |
| BasicAccess.TransmitPacket | simulation.py:25-26 | a success costs exactly a collision's DIFS + backoff + SIFS + ACK, with no transmission-time term, and at least one slot |
| BasicAccess.Redraw | simulation.py:45-48 | a router draws when its backoff is 0 or the extension is non-zero. It raises ValueError exactly when some router draws and the window exceeds 2^63. Otherwise each draw lands in the window and an undrawn backoff is kept. Non-negative backoffs stay non-negative, router 1's draw is the one at stream position `drawn` and router 2's is the next unread one, and nothing else changes |
| BasicAccess.Step | simulation.py:44-83 | raises exactly when a draw overflows or a cursor is past its schedule. The draw's ValueError comes first, then IndexError. With non-negative backoffs the clock strictly grows, and at most one cursor passes one packet that had arrived. The stream position is the one the draws left. Collision: +1 collision, +1 extension, both routers exactly as drawn (cursors and equal backoffs kept), clock + DIFS+b+SIFS+ACK with b the drawn backoff. Win: the winner's cursor +1 and backoff 0, extension 0, and the loser's backoff is unchanged. Single router: its cursor +1 and backoff 0, with the rest untouched. Idle: clock + 1 and nothing else |
| BasicAccess.Run | simulation.py:43-83 | the loop stops with the clock at or past the horizon. It keeps both schedules, never moves a cursor back, never lowers the collision count, and keeps every cursor within its schedule. It can raise only IndexError or ValueError |
| BasicAccess.Start | simulation.py:35-41 | two fresh routers (cursor 0, backoff 0) and the clock at the smaller first arrival. The extension and the collision count are carried over from the previous trial. IndexError exactly when a schedule is empty |
| BasicAccess.Metrics | simulation.py:85-94 | reports the cumulative collision count. Throughput is successes₁ × bandwidth / simulation_time, and fairness is successes₁ / successes₂. ZeroDivisionError exactly when successes₂ = 0. The counters are handed to the next trial |
| BasicAccess.Simulate | simulation.py:35-94 | an empty schedule raises IndexError. Otherwise the loop's exception is passed on, or the metrics of its final state are reported. A report counts at least the collisions carried in |
| BasicAccess.GenerateTraffic | simulation.py:103-113 | the schedule has 2·rate·time entries and no padding, and its gaps are the sampled gaps |
| BasicAccessProperties.CollisionWidensWindow | simulation.py:45-56 | after a collision both routers draw again from a window twice as wide |
| BasicAccessProperties.ZeroIsDrawnAgain | simulation.py:45-46 | a backoff of 0, whether reset or drawn, is drawn again at the next iteration. That draw raises ValueError exactly when the window exceeds 2^63 |
| BasicAccessProperties.RunStaysInCoveredSchedules | simulation.py:44-83 | when each schedule's last entry is at or past the horizon, the loop never raises IndexError, so only a draw can raise (ValueError). A finished run has no cursor past the last entry |
| BasicAccessProperties.RunSendsOnlyBeforeHorizon | simulation.py:44-83 | every packet the loop sends arrived before the horizon |
| BasicAccessProperties.SimulateOnCoveredSchedules | simulation.py:35-94 | with both schedules reaching the horizon, a trial can raise only ValueError from a draw or ZeroDivisionError. The loop itself raises only ValueError, and each router sends at most its arrivals before the horizon |
| BasicAccessProperties.SimulateOverrunsShortSchedule | simulation.py:35-113 | without padding a trial on generated traffic can raise IndexError: with rate 1, twenty zero gaps per router, router 1 drawing 0 and router 2 drawing 1, router 1 sends its twenty packets and the next read is past its schedule |
| BasicAccessProperties.LastSlotStillRuns | simulation.py:8-83 | the loop still runs at clock 1_000_000: with router 2 sending at 999_990 and router 1's packet arriving at 1_000_000, both packets are sent, so fairness is 1 and throughput 800000 |
| BasicAccessProperties.CollisionsAccumulate | simulation.py:20-23 | the reported collisions include every earlier trial's, and the total is handed on |
| BasicAccessProperties.RunKeepsExtensionNeedsBoth | simulation.py:51-83 | from a state where a positive extension implies both routers are ready, the loop keeps that invariant |
| BasicAccessProperties.DrawOverflowsAfter62Collisions | simulation.py:45-48 | with the code's constants an iteration raises ValueError exactly when the extension is at least 62; the extension is carried across trials |
| BasicAccessProperties.AnyDrawsPossible | simulation.py:45-48 | for any backoffs inside the window, some stream makes the routers that draw get exactly those, router 1 first |
| BasicAccessProperties.DrawsPastCwMax | simulation.py:12-13 | once the window is wider than `cw_max` (and within the 64-bit range), some stream makes both routers draw a backoff ≥ `cw_max` |

## Left out

- Traffic sampling (`np.random.uniform`, the logarithm, `np.ceil` on
  floats) is left out because it is floating-point random sampling. The
  model starts from the rounded-up gaps.
- `np.random.randint` is replaced by the draw stream described above,
  because it is a random source. Its 64-bit range check is kept.
- `tx_slots` and `simulation_slots` are integer parameters, because the
  code computes them in floating point. In `simulation.py` the horizon is
  a float, and for an integer clock `horizon > clock` means the same as
  comparing with its ceiling, 1_000_001.
- The throughput and fairness divisions are exact `real` arithmetic
  instead of float arithmetic.
- `print` output, `main()`, `del router1, router2` and the
  `run_simulation` loop over `arrival_rates` are left out. They are I/O or
  driver code. The counters that `simulation.py` carries from one rate to
  the next are the `Tally` passed to `BasicAccess.Start`.
- `cw_max` is a field of `Params` that nothing reads, because the code
  never applies it.

=== FILE: basic_access.dfy ===
/** The basic-access variant of the simulator, simulation.py: an unset
    backoff is the sentinel 0 (so a drawn 0 is drawn again), a success
    costs exactly what a collision costs, the loser's backoff is reduced
    by the winner's backoff only after that has been reset to 0, and the
    collision counters live on across trials. */
module BasicAccess {
  import opened Contention
  import opened Traffic

  /** The class constants of `Simulation`; `horizon` is `simulation_slots`. */
  datatype Params = Params(
    horizon: int,
    simulationTime: nat,
    bandwidth: nat,
    cwBase: nat,
    cwMax: nat,
    difs: nat,
    sifs: nat,
    ack: nat)
  {
    /** A non-empty draw range, a positive cost for every exchange, and a
        non-zero divisor for the throughput. */
    predicate Valid() {
      cwBase >= 1 && difs >= 1 && simulationTime >= 1
    }
  }

  /** 10 s of 10 us slots at 8 Mbit/s. `simulation_slots` is the float
      quotient 10 / (10 * 10**-6), which comes out just above 1_000_000
      because `10 * 10**-6` rounds below 1e-5. The loop therefore still
      runs at clock 1_000_000, and the integer horizon is 1_000_001. */
  const Defaults: Params := Params(1_000_001, 10, 8_000_000, 4, 1024, 4, 1, 2)

  /** The backoff of a router with no backoff drawn, and of a fresh router. */
  const Unset: int := 0

  /** Slots a collision occupies. */
  function CollisionCost(p: Params, backoff: int): int {
    p.difs + backoff + p.sifs + p.ack
  }

  /** `transmit_packet`: slots a successful transmission occupies, with no
      term for the data frame itself. */
  function TransmitPacket(p: Params, backoff: int): (c: int)
    ensures c == CollisionCost(p, backoff)
    ensures p.Valid() && backoff >= 0 ==> c >= 1
  {
    p.difs + backoff + p.sifs + p.ack
  }

  /** A backoff is drawn when it is 0 (unset, or drawn as 0) or after a
      collision. */
  predicate NeedsDraw(backoff: int, extension: nat) {
    backoff == Unset || extension != 0
  }

  predicate BackoffsNonNegative(st: State) {
    st.router1.backoff >= 0 && st.router2.backoff >= 0
  }

  /** Some router needs a draw this iteration and the window is wider
      than a 64-bit draw allows. */
  predicate DrawOverflows(p: Params, st: State) {
    && (NeedsDraw(st.router1.backoff, st.extension) || NeedsDraw(st.router2.backoff, st.extension))
    && Window(p.cwBase, st.extension) > MaxHigh
  }

  /** The draws at the top of each iteration, router 1 first. */
  function Redraw(p: Params, rng: nat -> nat, st: State): (r: Result<State>)
    requires p.Valid()
    ensures r.Err? <==> DrawOverflows(p, st)
    ensures r.Err? ==> r.error == ValueError
    ensures r.Ok? ==> var d := r.value;
              && (BackoffsNonNegative(st) ==> BackoffsNonNegative(d))
              && (NeedsDraw(st.router1.backoff, st.extension) ==>
                    0 <= d.router1.backoff < Window(p.cwBase, st.extension))
              && (NeedsDraw(st.router2.backoff, st.extension) ==>
                    0 <= d.router2.backoff < Window(p.cwBase, st.extension))
              && (!NeedsDraw(st.router1.backoff, st.extension) ==> d.router1.backoff == st.router1.backoff)
              && (!NeedsDraw(st.router2.backoff, st.extension) ==> d.router2.backoff == st.router2.backoff)
              && d.drawn == st.drawn + (if NeedsDraw(st.router1.backoff, st.extension) then 1 else 0)
                                     + (if NeedsDraw(st.router2.backoff, st.extension) then 1 else 0)
              && d.router1.(backoff := st.router1.backoff) == st.router1
              && d.router2.(backoff := st.router2.backoff) == st.router2
              && d.clock == st.clock && d.extension == st.extension && d.collisions == st.collisions
    // router 1 reads stream position `drawn`; router 2 reads the next one left
    ensures r.Ok? && NeedsDraw(st.router1.backoff, st.extension) ==>
              GenerateBackoff(p.cwBase, rng, st.drawn, st.extension) == Ok(r.value.router1.backoff)
    ensures r.Ok? && NeedsDraw(st.router2.backoff, st.extension) ==>
              var k := st.drawn + (if NeedsDraw(st.router1.backoff, st.extension) then 1 else 0);
              GenerateBackoff(p.cwBase, rng, k, st.extension) == Ok(r.value.router2.backoff)
  {
    var draw1 := NeedsDraw(st.router1.backoff, st.extension);
    var first := if draw1 then GenerateBackoff(p.cwBase, rng, st.drawn, st.extension) else Ok(st.router1.backoff);
    match first
    case Err(e) => Err(e)
    case Ok(b1) =>
      var k := if draw1 then st.drawn + 1 else st.drawn;
      var draw2 := NeedsDraw(st.router2.backoff, st.extension);
      var second := if draw2 then GenerateBackoff(p.cwBase, rng, k, st.extension) else Ok(st.router2.backoff);
      match second
      case Err(e) => Err(e)
      case Ok(b2) =>
        var k' := if draw2 then k + 1 else k;
        Ok(st.(router1 := st.router1.(backoff := b1), router2 := st.router2.(backoff := b2), drawn := k'))
  }

  /** One iteration of the `start_simulation` loop. The draws come first
      and raise on a window too wide for them; then reading either
      router's schedule past its end raises. */
  function Step(p: Params, rng: nat -> nat, st: State): (r: Result<State>)
    requires p.Valid()
    ensures r.Err? <==> DrawOverflows(p, st) || !st.InBounds()
    ensures r.Err? ==> r.error == (if DrawOverflows(p, st) then ValueError else IndexError)
    ensures r.Ok? ==> Redraw(p, rng, st).Ok?
    ensures r.Ok? && BackoffsNonNegative(st) ==>
              r.value.clock > st.clock && BackoffsNonNegative(r.value)
    ensures r.Ok? ==> && StepsPast(st.router1, r.value.router1, st.clock)
                      && StepsPast(st.router2, r.value.router2, st.clock)
    ensures r.Ok? ==> r.value.router1.slotIndex + r.value.router2.slotIndex
                      <= st.router1.slotIndex + st.router2.slotIndex + 1
    ensures r.Ok? ==> r.value.drawn == Redraw(p, rng, st).value.drawn
    // collision: both routers keep their packets and their (equal) drawn backoffs
    ensures r.Ok? && Arbitration(Redraw(p, rng, st).value) == Collision ==>
              var d := Redraw(p, rng, st).value;
              && r.value.collisions == st.collisions + 1
              && r.value.extension == st.extension + 1
              && r.value.router1 == d.router1
              && r.value.router2 == d.router2
              && r.value.router1.backoff == r.value.router2.backoff
              && r.value.clock == st.clock + CollisionCost(p, d.router1.backoff)
    // router 1 wins: the loser keeps its backoff unreduced
    ensures r.Ok? && Arbitration(Redraw(p, rng, st).value) == Win1 ==>
              var d := Redraw(p, rng, st).value;
              && r.value.router1.slotIndex == st.router1.slotIndex + 1
              && r.value.router2.slotIndex == st.router2.slotIndex
              && r.value.router1.backoff == Unset
              && r.value.router2.backoff == d.router2.backoff
              && r.value.extension == 0
              && r.value.collisions == st.collisions
              && r.value.clock == st.clock + TransmitPacket(p, d.router1.backoff)
    ensures r.Ok? && Arbitration(Redraw(p, rng, st).value) == Win2 ==>
              var d := Redraw(p, rng, st).value;
              && r.value.router2.slotIndex == st.router2.slotIndex + 1
              && r.value.router1.slotIndex == st.router1.slotIndex
              && r.value.router2.backoff == Unset
              && r.value.router1.backoff == d.router1.backoff
              && r.value.extension == 0
              && r.value.collisions == st.collisions
              && r.value.clock == st.clock + TransmitPacket(p, d.router2.backoff)
    // only one router ready: it sends, the other is left as drawn
    ensures r.Ok? && Arbitration(Redraw(p, rng, st).value) == Solo1 ==>
              var d := Redraw(p, rng, st).value;
              && r.value.router1.slotIndex == st.router1.slotIndex + 1
              && r.value.router1.backoff == Unset
              && r.value.router2 == d.router2
              && r.value.extension == st.extension
              && r.value.collisions == st.collisions
              && r.value.clock == st.clock + TransmitPacket(p, d.router1.backoff)
    ensures r.Ok? && Arbitration(Redraw(p, rng, st).value) == Solo2 ==>
              var d := Redraw(p, rng, st).value;
              && r.value.router2.slotIndex == st.router2.slotIndex + 1
              && r.value.router2.backoff == Unset
              && r.value.router1 == d.router1
              && r.value.extension == st.extension
              && r.value.collisions == st.collisions
              && r.value.clock == st.clock + TransmitPacket(p, d.router2.backoff)
    // idle: one slot passes and nothing else changes
    ensures r.Ok? && Arbitration(Redraw(p, rng, st).value) == Idle ==>
              r.value == Redraw(p, rng, st).value.(clock := st.clock + 1)
  {
    match Redraw(p, rng, st)
    case Err(e) => Err(e)
    case Ok(d) =>
      if !st.InBounds() then Err(IndexError)
      else
        var b1 := d.router1.backoff;
        var b2 := d.router2.backoff;
        match Arbitration(d)
        case Collision =>
          Ok(d.(clock := d.clock + CollisionCost(p, b1),
                extension := d.extension + 1,
                collisions := d.collisions + 1))
        case Win1 =>
          // the winner is reset before the loser is adjusted
          var winner := d.router1.(slotIndex := d.router1.slotIndex + 1, backoff := Unset);
          Ok(d.(clock := d.clock + TransmitPacket(p, b1),
                router1 := winner,
                extension := 0,
                router2 := d.router2.(backoff := b2 - winner.backoff)))
        case Win2 =>
          var winner := d.router2.(slotIndex := d.router2.slotIndex + 1, backoff := Unset);
          Ok(d.(clock := d.clock + TransmitPacket(p, b2),
                router2 := winner,
                extension := 0,
                router1 := d.router1.(backoff := b1 - winner.backoff)))
        case Solo1 =>
          Ok(d.(clock := d.clock + TransmitPacket(p, b1),
                router1 := d.router1.(slotIndex := d.router1.slotIndex + 1, backoff := Unset)))
        case Solo2 =>
          Ok(d.(clock := d.clock + TransmitPacket(p, b2),
                router2 := d.router2.(slotIndex := d.router2.slotIndex + 1, backoff := Unset)))
        case Idle =>
          Ok(d.(clock := d.clock + 1))
  }

  /** The loop: iterate while the clock is below the horizon. */
  function Run(p: Params, rng: nat -> nat, st: State): (r: Result<State>)
    requires p.Valid() && BackoffsNonNegative(st)
    ensures st.clock >= p.horizon ==> r == Ok(st)
    ensures r.Err? ==> r.error == IndexError || r.error == ValueError
    ensures r.Ok? ==> r.value.clock >= p.horizon && r.value.clock >= st.clock
    ensures r.Ok? ==> && r.value.router1.arrivals == st.router1.arrivals
                      && r.value.router2.arrivals == st.router2.arrivals
    ensures r.Ok? ==> && st.router1.slotIndex <= r.value.router1.slotIndex
                      && st.router2.slotIndex <= r.value.router2.slotIndex
    ensures r.Ok? ==> && (st.router1.HasNext() ==> r.value.router1.slotIndex <= |st.router1.arrivals|)
                      && (st.router2.HasNext() ==> r.value.router2.slotIndex <= |st.router2.arrivals|)
    ensures r.Ok? ==> st.collisions <= r.value.collisions
    decreases p.horizon - st.clock
  {
    if st.clock >= p.horizon then Ok(st)
    else
      match Step(p, rng, st)
      case Err(e) => Err(e)
      case Ok(next) => Run(p, rng, next)
  }

  /** The class-level counters `extendedBackoff` and `collisionCounter`,
      which one trial leaves behind for the next. */
  datatype Tally = Tally(extension: nat, collisions: nat)

  /** Two fresh routers, the clock at the earlier first arrival, and the
      counters as the previous trial left them. */
  function Start(arrivals1: seq<int>, arrivals2: seq<int>, carried: Tally): (r: Result<State>)
    ensures r.Err? <==> |arrivals1| == 0 || |arrivals2| == 0
    ensures r.Err? ==> r.error == IndexError
    ensures r.Ok? ==> r.value.clock <= arrivals1[0] && r.value.clock <= arrivals2[0]
    ensures r.Ok? ==> r.value.clock == arrivals1[0] || r.value.clock == arrivals2[0]
    ensures r.Ok? ==> && r.value.router1 == Router(arrivals1, 0, Unset)
                      && r.value.router2 == Router(arrivals2, 0, Unset)
                      && r.value.extension == carried.extension
                      && r.value.collisions == carried.collisions
                      && r.value.drawn == 0
    ensures r.Ok? ==> BackoffsNonNegative(r.value)
  {
    if |arrivals1| == 0 || |arrivals2| == 0 then Err(IndexError)
    else
      var clock := if arrivals1[0] <= arrivals2[0] then arrivals1[0] else arrivals2[0];
      Ok(State(clock, Router(arrivals1, 0, Unset), Router(arrivals2, 0, Unset),
               carried.extension, carried.collisions, 0))
  }

  /** The metrics of one rate; the throughput is router 1's only. */
  datatype Report = Report(collisions: nat, throughput: real, fairness: real)

  /** The outcome of a trial: its report and the counters it leaves. */
  datatype Trial = Trial(report: Report, carry: Tally)

  function Metrics(p: Params, final: State): (r: Result<Trial>)
    requires p.Valid()
    ensures r.Err? <==> final.router2.slotIndex == 0
    ensures r.Err? ==> r.error == ZeroDivisionError
    ensures r.Ok? ==> && r.value.report.collisions == final.collisions
                      && r.value.carry == Tally(final.extension, final.collisions)
    ensures r.Ok? ==> r.value.report.throughput * p.simulationTime as real
                      == (final.router1.slotIndex * p.bandwidth) as real
    ensures r.Ok? ==> r.value.report.fairness * final.router2.slotIndex as real
                      == final.router1.slotIndex as real
  {
    var successes1 := final.router1.slotIndex;
    var successes2 := final.router2.slotIndex;
    match Fairness(successes1, successes2)
    case Err(e) => Err(e)
    case Ok(f) =>
      Ok(Trial(Report(final.collisions, Throughput(successes1, p.bandwidth, p.simulationTime), f),
               Tally(final.extension, final.collisions)))
  }

  /** `start_simulation` for two given schedules and the counters carried
      in from earlier trials: an empty schedule raises at once, the loop
      may raise, and otherwise the metrics of the final state are
      reported, which raise when router 2 sent nothing. */
  function Simulate(p: Params, rng: nat -> nat, arrivals1: seq<int>, arrivals2: seq<int>, carried: Tally): (r: Result<Trial>)
    requires p.Valid()
    ensures |arrivals1| == 0 || |arrivals2| == 0 ==> r == Err(IndexError)
    ensures |arrivals1| > 0 && |arrivals2| > 0 ==>
              var run := Run(p, rng, Start(arrivals1, arrivals2, carried).value);
              && (run.Err? ==> r == Err(run.error))
              && (run.Ok? ==> r == Metrics(p, run.value))
    ensures r.Err? ==> r.error == IndexError || r.error == ValueError || r.error == ZeroDivisionError
    ensures r.Ok? ==> r.value.report.collisions >= carried.collisions
  {
    match Start(arrivals1, arrivals2, carried)
    case Err(e) => Err(e)
    case Ok(st) =>
      match Run(p, rng, st)
      case Err(e) => Err(e)
      case Ok(final) => Metrics(p, final)
  }

  /** `generator_traffic`: the running sum of `2 * rate * simulationTime`
      gaps, with no padding. */
  function GenerateTraffic(p: Params, rate: nat, gaps: seq<nat>): (s: seq<int>)
    requires |gaps| == 2 * rate * p.simulationTime
    ensures |s| == |gaps|
    ensures IsSchedule(s) && Gaps(s) == gaps
  {
    GapsOfCumSum(gaps);
    CumSum(gaps)
  }
}

=== FILE: basic_access_props.dfy ===
/** Properties of whole runs of the basic-access loop: when it stays
    inside its unpadded schedules, what a trial sends, and how the
    counters carried between trials behave. */
module BasicAccessProperties {
  import opened Contention
  import opened Traffic
  import opened BasicAccess

  /** After a collision both routers draw again, from a window twice as
      wide as the one the colliding backoffs came from. */
  lemma CollisionWidensWindow(p: Params, rng: nat -> nat, st: State)
    requires p.Valid()
    requires st.InBounds()
    requires Redraw(p, rng, st).Ok? && Arbitration(Redraw(p, rng, st).value) == Collision
    ensures Step(p, rng, st).Ok?
    ensures var next := Step(p, rng, st).value;
            && NeedsDraw(next.router1.backoff, next.extension)
            && NeedsDraw(next.router2.backoff, next.extension)
            && Window(p.cwBase, next.extension) == 2 * Window(p.cwBase, st.extension)
  {
    WindowDoubles(p.cwBase, st.extension);
  }

  /** A router that has just sent, or whose draw came out 0, draws again
      at the next iteration whatever the extension, and so raises when the
      window is too wide for the draw. */
  lemma ZeroIsDrawnAgain(p: Params, rng: nat -> nat, st: State)
    requires p.Valid()
    requires st.router1.backoff == 0
    ensures Redraw(p, rng, st).Err? <==> Window(p.cwBase, st.extension) > MaxHigh
    ensures Redraw(p, rng, st).Ok? ==>
              && Redraw(p, rng, st).value.drawn > st.drawn
              && Redraw(p, rng, st).value.router1.backoff
                 == GenerateBackoff(p.cwBase, rng, st.drawn, st.extension).value
  {
  }

  /** With the last entry of each schedule at or beyond the horizon the
      loop never reads past the end: the cursor stops at the last entry,
      and the only exception the loop can raise is the draw's ValueError. */
  lemma {:induction false} RunStaysInCoveredSchedules(p: Params, rng: nat -> nat, st: State)
    requires p.Valid() && BackoffsNonNegative(st)
    requires st.router1.slotIndex < |st.router1.arrivals|
    requires st.router2.slotIndex < |st.router2.arrivals|
    requires PaddedFrom(st.router1, |st.router1.arrivals| - 1, p.horizon)
    requires PaddedFrom(st.router2, |st.router2.arrivals| - 1, p.horizon)
    ensures Run(p, rng, st).Err? ==> Run(p, rng, st).error == ValueError
    ensures Run(p, rng, st).Ok? ==>
              && Run(p, rng, st).value.router1.slotIndex < |st.router1.arrivals|
              && Run(p, rng, st).value.router2.slotIndex < |st.router2.arrivals|
    decreases p.horizon - st.clock
  {
    if st.clock < p.horizon {
      var r := Step(p, rng, st);
      if r.Ok? {
        var next := r.value;
        PaddingKept(st.router1, next.router1, st.clock, |st.router1.arrivals| - 1, p.horizon);
        PaddingKept(st.router2, next.router2, st.clock, |st.router2.arrivals| - 1, p.horizon);
        RunStaysInCoveredSchedules(p, rng, next);
      }
    }
  }

  /** Every packet a run sends had arrived before the horizon. */
  lemma {:induction false} RunSendsOnlyBeforeHorizon(p: Params, rng: nat -> nat, st: State)
    requires p.Valid() && BackoffsNonNegative(st)
    requires SentBefore(st.router1, p.horizon) && SentBefore(st.router2, p.horizon)
    ensures Run(p, rng, st).Ok? ==>
              && SentBefore(Run(p, rng, st).value.router1, p.horizon)
              && SentBefore(Run(p, rng, st).value.router2, p.horizon)
    decreases p.horizon - st.clock
  {
    if st.clock < p.horizon {
      var r := Step(p, rng, st);
      if r.Ok? {
        SentBeforeKept(st.router1, r.value.router1, st.clock, p.horizon);
        SentBeforeKept(st.router2, r.value.router2, st.clock, p.horizon);
        RunSendsOnlyBeforeHorizon(p, rng, r.value);
      }
    }
  }

  /** A trial whose schedules both end at or beyond the horizon can only
      fail in a draw or on the fairness division, and each router sends at
      most its arrivals before the horizon. */
  lemma SimulateOnCoveredSchedules(p: Params, rng: nat -> nat, s1: seq<int>, s2: seq<int>, carried: Tally)
    requires p.Valid()
    requires |s1| > 0 && s1[|s1| - 1] >= p.horizon
    requires |s2| > 0 && s2[|s2| - 1] >= p.horizon
    ensures Simulate(p, rng, s1, s2, carried).Err? ==>
              Simulate(p, rng, s1, s2, carried).error in {ValueError, ZeroDivisionError}
    ensures var run := Run(p, rng, Start(s1, s2, carried).value);
            && (run.Err? ==> run.error == ValueError)
            && (run.Ok? ==> && run.value.router1.slotIndex <= CountBelow(s1, p.horizon)
                            && run.value.router2.slotIndex <= CountBelow(s2, p.horizon))
  {
    var st := Start(s1, s2, carried).value;
    RunStaysInCoveredSchedules(p, rng, st);
    RunSendsOnlyBeforeHorizon(p, rng, st);
    if Run(p, rng, st).Ok? {
      var final := Run(p, rng, st).value;
      SentWithinCount(final.router1, p.horizon);
      SentWithinCount(final.router2, p.horizon);
    }
  }

  /** Draws that let router 1 win every slot: 0 for router 1, and 1 for
      router 2's single draw at the start. */
  const OverrunDraws: nat -> nat := k => if k == 1 then 1 else 0

  /** Twenty zero gaps sum to twenty arrivals at slot 0. */
  lemma {:induction false} ZeroGapsArriveAtOnce(gaps: seq<nat>, j: nat)
    requires forall i :: 0 <= i < |gaps| ==> gaps[i] == 0
    requires j < |gaps|
    ensures CumSum(gaps)[j] == 0
  {
    if j > 0 {
      ZeroGapsArriveAtOnce(gaps, j - 1);
    }
  }

  /** From the state after i of router 1's wins, router 1 keeps winning
      every 7 slots until its cursor reaches the end of a 20-entry
      schedule of arrivals at slot 0, and the next read raises. */
  lemma {:induction false} OneRouterWinsUntilOverrun(s: seq<int>, i: nat)
    requires |s| == 20 && forall j :: 0 <= j < |s| ==> s[j] == 0
    requires 1 <= i <= 20
    ensures Run(Defaults, OverrunDraws, State(7 * i, Router(s, i, 0), Router(s, 0, 1), 0, 0, i + 1))
            == Err(IndexError)
    decreases 20 - i
  {
    var st := State(7 * i, Router(s, i, 0), Router(s, 0, 1), 0, 0, i + 1);
    assert Window(Defaults.cwBase, 0) == 4;
    if i < 20 {
      var d := Redraw(Defaults, OverrunDraws, st).value;
      assert d.router1.backoff == 0;
      assert Arbitration(d) == Win1;
      var next := State(7 * (i + 1), Router(s, i + 1, 0), Router(s, 0, 1), 0, 0, i + 2);
      assert Step(Defaults, OverrunDraws, st) == Ok(next);
      OneRouterWinsUntilOverrun(s, i + 1);
    } else {
      assert Step(Defaults, OverrunDraws, st) == Err(IndexError);
    }
  }

  /** Without padding the loop can read past a schedule: on two generated
      schedules of twenty arrivals at slot 0 (rate 1, all gaps 0), with
      router 1 drawing 0 every time and router 2 drawing 1 once, router 1
      sends all twenty packets by slot 140 and the next iteration reads
      its schedule at index 20. */
  lemma SimulateOverrunsShortSchedule()
    ensures var s := GenerateTraffic(Defaults, 1, seq(20, _ => 0));
            Simulate(Defaults, OverrunDraws, s, s, Tally(0, 0)) == Err(IndexError)
  {
    var gaps: seq<nat> := seq(20, _ => 0);
    var s := GenerateTraffic(Defaults, 1, gaps);
    forall j | 0 <= j < |s|
      ensures s[j] == 0
    {
      ZeroGapsArriveAtOnce(gaps, j);
    }
    var st := Start(s, s, Tally(0, 0)).value;
    assert Window(Defaults.cwBase, 0) == 4;
    var d := Redraw(Defaults, OverrunDraws, st).value;
    assert d.router1.backoff == 0 && d.router2.backoff == 1;
    assert Arbitration(d) == Win1;
    var next := State(7, Router(s, 1, 0), Router(s, 0, 1), 0, 0, 2);
    assert Step(Defaults, OverrunDraws, st) == Ok(next);
    OneRouterWinsUntilOverrun(s, 1);
    assert Run(Defaults, OverrunDraws, st) == Err(IndexError);
  }

  /** The horizon is just above 1_000_000, so the loop still runs at that
      slot: router 2 sends its packet from 999_990 and brings the clock to
      1_000_000, and router 1's packet arriving at 1_000_000 is sent too. */
  lemma LastSlotStillRuns()
    ensures var r := Simulate(Defaults, Scripted(0, 3, 3), [1_000_000, 2_000_000], [999_990, 2_000_000], Tally(0, 0));
            && r.Ok?
            && r.value.report.fairness == 1.0
            && r.value.report.throughput == 800_000.0
  {
    var rng := Scripted(0, 3, 3);
    var s1: seq<int> := [1_000_000, 2_000_000];
    var s2: seq<int> := [999_990, 2_000_000];
    var st := Start(s1, s2, Tally(0, 0)).value;
    assert Window(Defaults.cwBase, 0) == 4;
    ScriptedDraws(rng, 0, 3, 3, 4);
    var d := Redraw(Defaults, rng, st).value;
    assert d.router1.backoff == 3 && d.router2.backoff == 3;
    assert Arbitration(d) == Solo2;
    var mid := Step(Defaults, rng, st).value;
    assert mid.clock == 1_000_000 && mid.router2.slotIndex == 1 && mid.router1.slotIndex == 0;
    var d2 := Redraw(Defaults, rng, mid).value;
    assert d2.router1.backoff == 3;
    assert Arbitration(d2) == Solo1;
    var last := Step(Defaults, rng, mid).value;
    assert last.clock == 1_000_010 && last.router1.slotIndex == 1 && last.router2.slotIndex == 1;
    assert Run(Defaults, rng, last) == Ok(last);
    assert Run(Defaults, rng, st) == Ok(last);
  }

  /** The counters are not reset between trials: a trial reports the
      collisions of all trials so far and hands the total on. */
  lemma CollisionsAccumulate(p: Params, rng: nat -> nat, s1: seq<int>, s2: seq<int>, carried: Tally)
    requires p.Valid()
    ensures var r := Simulate(p, rng, s1, s2, carried);
            r.Ok? ==> && r.value.report.collisions >= carried.collisions
                      && r.value.carry.collisions == r.value.report.collisions
  {
  }

  /** A collision keeps both packets waiting and a contested success
      resets the extension, so an iteration keeps `ExtensionNeedsBoth`.
      It holds at the start of every trial that inherits extension 0; it
      can fail at the start of a trial only when the previous trial ended
      with a positive extension. */
  lemma {:induction false} RunKeepsExtensionNeedsBoth(p: Params, rng: nat -> nat, st: State)
    requires p.Valid() && BackoffsNonNegative(st)
    requires ExtensionNeedsBoth(st)
    ensures Run(p, rng, st).Ok? ==> ExtensionNeedsBoth(Run(p, rng, st).value)
    decreases p.horizon - st.clock
  {
    if st.clock < p.horizon {
      var r := Step(p, rng, st);
      if r.Ok? {
        if Arbitration(Redraw(p, rng, st).value) == Collision {
          assert r.value.router1.arrivals == st.router1.arrivals;
          assert r.value.router2.arrivals == st.router2.arrivals;
        }
        RunKeepsExtensionNeedsBoth(p, rng, r.value);
      }
    }
  }

  /** With the code's constants the draw raises exactly once the
      extension reaches 62: a run raises ValueError only after 62
      consecutive collisions, counted across trials. */
  lemma DrawOverflowsAfter62Collisions(st: State)
    ensures DrawOverflows(Defaults, st) <==> st.extension >= 62
  {
    DrawOverflowsAt62(st.extension);
  }

  /** The stream is no restriction: whatever in-range backoffs b1 and b2
      are wanted, some stream makes the routers that draw get exactly
      those, router 1 first. */
  lemma AnyDrawsPossible(p: Params, st: State, b1: nat, b2: nat)
    requires p.Valid() && !DrawOverflows(p, st)
    requires b1 < Window(p.cwBase, st.extension) && b2 < Window(p.cwBase, st.extension)
    ensures var draw1 := NeedsDraw(st.router1.backoff, st.extension);
            var r := Redraw(p, Scripted(st.drawn, if draw1 then b1 else b2, b2), st);
            && r.Ok?
            && (draw1 ==> r.value.router1.backoff == b1)
            && (NeedsDraw(st.router2.backoff, st.extension) ==> r.value.router2.backoff == b2)
  {
    var draw1 := NeedsDraw(st.router1.backoff, st.extension);
    var draw2 := NeedsDraw(st.router2.backoff, st.extension);
    var rng := Scripted(st.drawn, if draw1 then b1 else b2, b2);
    var w := Window(p.cwBase, st.extension);
    if draw1 || draw2 {
      ScriptedDraws(rng, st.drawn, if draw1 then b1 else b2, b2, w);
    }
    if draw1 {
      assert GenerateBackoff(p.cwBase, rng, st.drawn, st.extension) == Ok(b1);
      if draw2 {
        assert GenerateBackoff(p.cwBase, rng, st.drawn + 1, st.extension) == Ok(b2);
      }
    } else if draw2 {
      assert GenerateBackoff(p.cwBase, rng, st.drawn, st.extension) == Ok(b2);
    }
  }

  /** `cw_max` bounds nothing: once the window is wider than `cw_max`
      (and still within a 64-bit draw), a collision can be followed by
      backoffs of `cw_max` or more. */
  lemma DrawsPastCwMax(p: Params, st: State)
    requires p.Valid() && st.extension > 0
    requires p.cwMax < Window(p.cwBase, st.extension) <= MaxHigh
    ensures var r := Redraw(p, Scripted(st.drawn, p.cwMax, p.cwMax), st);
            r.Ok? && r.value.router1.backoff >= p.cwMax && r.value.router2.backoff >= p.cwMax
  {
    var rng := Scripted(st.drawn, p.cwMax, p.cwMax);
    ScriptedDraws(rng, st.drawn, p.cwMax, p.cwMax, Window(p.cwBase, st.extension));
    assert GenerateBackoff(p.cwBase, rng, st.drawn, st.extension) == Ok(p.cwMax);
    assert GenerateBackoff(p.cwBase, rng, st.drawn + 1, st.extension) == Ok(p.cwMax);
  }
}

=== FILE: contention.dfy ===
/** Vocabulary shared by both protocol variants of the two-router slot
    arbitration: error outcomes, the binary exponential contention window,
    the random backoff source, the router and loop state, the branch the
    loop takes in one iteration, and the fairness division. */
module Contention {

  /** The exceptions the simulator can raise. */
  datatype Error =
    | IndexError        // a read of an arrival schedule past its end
    | ValueError        // a backoff range too wide for a 64-bit draw
    | ZeroDivisionError // the fairness ratio with no success for router 2

  datatype Result<T> = Ok(value: T) | Err(error: Error)

  function Pow2(n: nat): (r: nat)
    ensures r >= 1
  {
    if n == 0 then 1 else 2 * Pow2(n - 1)
  }

  /** The contention window after `extension` consecutive collisions:
      backoffs are drawn from [0, Window - 1]. */
  function Window(cwBase: nat, extension: nat): (w: nat)
    ensures cwBase >= 1 ==> w >= cwBase
  {
    cwBase * Pow2(extension)
  }

  /** Every collision doubles the window. */
  lemma WindowDoubles(cwBase: nat, extension: nat)
    ensures Window(cwBase, extension + 1) == 2 * Window(cwBase, extension)
  {
  }

  lemma {:induction false} Pow2Exceeds(n: nat)
    ensures Pow2(n) > n
  {
    if n > 0 {
      Pow2Exceeds(n - 1);
    }
  }

  lemma {:induction false} Pow2Monotone(m: nat, n: nat)
    requires m <= n
    ensures Pow2(m) <= Pow2(n)
    decreases n
  {
    if m < n {
      Pow2Monotone(m, n - 1);
    }
  }

  lemma {:induction false} Pow2Add(a: nat, b: nat)
    ensures Pow2(a + b) == Pow2(a) * Pow2(b)
    decreases b
  {
    if b > 0 {
      Pow2Add(a, b - 1);
      assert Pow2(a + b) == 2 * Pow2(a + (b - 1));
    }
  }

  /** No cap is ever applied to the window: whatever bound `cap` is
      configured, enough consecutive collisions take the window past it. */
  lemma WindowUncapped(cwBase: nat, cap: nat)
    requires cwBase >= 1
    ensures Window(cwBase, cap) > cap
  {
    Pow2Exceeds(cap);
    var p := Pow2(cap);
    var extra: nat := cwBase - 1;
    assert cwBase * p == p + extra * p;
  }

  /** `randint(0, high)` with its default signed 64-bit result type
      accepts only `high - 1 <= 2^63 - 1`; a wider range raises. */
  const MaxHigh: nat := 0x8000_0000_0000_0000

  /** `randint(0, window)`: the k-th value of the random stream `rng`,
      brought into [0, window - 1], or ValueError for a range wider than
      a 64-bit integer holds. */
  function Draw(rng: nat -> nat, k: nat, window: nat): (r: Result<int>)
    requires window >= 1
    ensures r.Err? <==> window > MaxHigh
    ensures r.Err? ==> r.error == ValueError
    ensures r.Ok? ==> 0 <= r.value < window
  {
    if window > MaxHigh then Err(ValueError) else Ok(rng(k) % window)
  }

  /** A stream that yields `first` at position `at` and `rest` at every
      other position. */
  function Scripted(at: nat, first: nat, rest: nat): nat -> nat {
    k => if k == at then first else rest
  }

  lemma SmallModulus(v: nat, window: nat)
    requires v < window
    ensures v % window == v
  {
    assert v / window == 0;
  }

  /** A scripted stream draws exactly its script, as long as the script
      lies in the window. */
  lemma ScriptedDraws(rng: nat -> nat, at: nat, first: nat, rest: nat, window: nat)
    requires rng == Scripted(at, first, rest)
    requires first < window <= MaxHigh && rest < window
    ensures Draw(rng, at, window) == Ok(first)
    ensures forall k :: k != at ==> Draw(rng, k, window) == Ok(rest)
  {
    SmallModulus(first, window);
    SmallModulus(rest, window);
  }

  /** `generate_backoff`, and the inline draw of the basic variant: a
      backoff from the window after `extension` collisions. No cap on the
      window plays any part; only the 64-bit range of the draw does. */
  function GenerateBackoff(cwBase: nat, rng: nat -> nat, k: nat, extension: nat): (r: Result<int>)
    requires cwBase >= 1
    ensures r.Err? <==> Window(cwBase, extension) > MaxHigh
    ensures r.Err? ==> r.error == ValueError
    ensures r.Ok? ==> 0 <= r.value < Window(cwBase, extension)
  {
    Draw(rng, k, Window(cwBase, extension))
  }

  lemma Pow2Near64()
    ensures Pow2(61) == 0x2000_0000_0000_0000
    ensures Pow2(62) == 0x4000_0000_0000_0000
  {
    assert Pow2(1) == 2;
    Pow2Add(1, 1);
    assert Pow2(2) == 4;
    Pow2Add(2, 2);
    assert Pow2(4) == 16;
    Pow2Add(4, 4);
    assert Pow2(8) == 256;
    Pow2Add(8, 8);
    assert Pow2(16) == 0x1_0000;
    Pow2Add(16, 16);
    assert Pow2(32) == 0x1_0000_0000;
    Pow2Add(32, 16);
    assert Pow2(48) == 0x1_0000_0000_0000;
    Pow2Add(48, 8);
    assert Pow2(56) == 0x100_0000_0000_0000;
    Pow2Add(56, 4);
    assert Pow2(60) == 0x1000_0000_0000_0000;
    Pow2Add(60, 1);
    Pow2Add(61, 1);
  }

  /** With the code's `cw_base` of 4, the draw first raises once the
      extension reaches 62, that is after 62 consecutive collisions. */
  lemma DrawOverflowsAt62(extension: nat)
    ensures Window(4, extension) > MaxHigh <==> extension >= 62
  {
    Pow2Near64();
    if extension >= 62 {
      Pow2Monotone(62, extension);
    } else {
      Pow2Monotone(extension, 61);
    }
  }

  /** One router: its arrival schedule, the index of its next unsent
      packet (also its count of successes) and its backoff. */
  datatype Router = Router(arrivals: seq<int>, slotIndex: nat, backoff: int)
  {
    /** The schedule can be read at the cursor. */
    predicate HasNext() {
      slotIndex < |arrivals|
    }

    /** A packet is waiting at `clock`. */
    predicate Ready(clock: int) {
      HasNext() && arrivals[slotIndex] <= clock
    }
  }

  /** The loop state: the shared clock, both routers, the consecutive
      collision count (`extension`), the collision tally, and how many
      values of the random stream have been used. */
  datatype State = State(clock: int, router1: Router, router2: Router,
                         extension: nat, collisions: nat, drawn: nat)
  {
    predicate InBounds() {
      router1.HasNext() && router2.HasNext()
    }
  }

  /** The branch one iteration of the loop takes. */
  datatype Branch = Collision | Win1 | Win2 | Solo1 | Solo2 | Idle

  /** Classifies an iteration on the state after the backoff draws. */
  function Arbitration(d: State): Branch
  {
    var ready1 := d.router1.Ready(d.clock);
    var ready2 := d.router2.Ready(d.clock);
    if ready1 && ready2 then
      if d.router1.backoff == d.router2.backoff then Collision
      else if d.router1.backoff < d.router2.backoff then Win1
      else Win2
    else if ready1 then Solo1
    else if ready2 then Solo2
    else Idle
  }

  /** A router moves from `before` to `after` in one iteration at `clock`:
      its schedule is kept, and its cursor either stays or passes exactly
      one packet that had arrived. */
  predicate StepsPast(before: Router, after: Router, clock: int) {
    && after.arrivals == before.arrivals
    && (|| after.slotIndex == before.slotIndex
        || (after.slotIndex == before.slotIndex + 1 && before.Ready(clock)))
  }

  /** Every packet the router has sent had arrived before `horizon`. */
  predicate SentBefore(r: Router, horizon: int) {
    && r.slotIndex <= |r.arrivals|
    && forall j :: 0 <= j < r.slotIndex ==> r.arrivals[j] < horizon
  }

  /** The schedule holds at least one entry from index `n` on, and every
      such entry lies at or beyond `horizon`. */
  predicate PaddedFrom(r: Router, n: nat, horizon: int) {
    && n < |r.arrivals|
    && forall j :: n <= j < |r.arrivals| ==> r.arrivals[j] >= horizon
  }

  /** A positive extension is only ever seen while both routers have a
      packet waiting. */
  predicate ExtensionNeedsBoth(st: State) {
    st.extension > 0 ==> st.router1.Ready(st.clock) && st.router2.Ready(st.clock)
  }

  /** Passing one arrived packet before the horizon keeps `SentBefore`. */
  lemma SentBeforeKept(before: Router, after: Router, clock: int, horizon: int)
    requires SentBefore(before, horizon)
    requires StepsPast(before, after, clock) && clock < horizon
    ensures SentBefore(after, horizon)
  {
    if after.slotIndex != before.slotIndex {
      assert after.arrivals[before.slotIndex] <= clock;
    }
  }

  /** Before the horizon no padding entry has arrived, so a cursor that
      has not reached the padding does not pass it. */
  lemma PaddingKept(before: Router, after: Router, clock: int, n: nat, horizon: int)
    requires PaddedFrom(before, n, horizon) && before.slotIndex <= n
    requires StepsPast(before, after, clock) && clock < horizon
    ensures PaddedFrom(after, n, horizon) && after.slotIndex <= n
  {
    if after.slotIndex != before.slotIndex {
      assert before.arrivals[before.slotIndex] <= clock;
    }
  }

  /** Number of entries of `s` below `horizon`. */
  function CountBelow(s: seq<int>, horizon: int): (c: nat)
    ensures c <= |s|
  {
    if |s| == 0 then 0
    else (if s[0] < horizon then 1 else 0) + CountBelow(s[1..], horizon)
  }

  /** A router cannot have sent more packets than its schedule holds
      arrivals before the horizon. */
  lemma {:induction false} SentWithinCount(r: Router, horizon: int)
    requires SentBefore(r, horizon)
    ensures r.slotIndex <= CountBelow(r.arrivals, horizon)
    decreases r.slotIndex
  {
    if r.slotIndex > 0 {
      var rest := Router(r.arrivals[1..], r.slotIndex - 1, r.backoff);
      assert SentBefore(rest, horizon) by {
        forall j | 0 <= j < rest.slotIndex
          ensures rest.arrivals[j] < horizon
        {
          assert rest.arrivals[j] == r.arrivals[j + 1];
        }
      }
      SentWithinCount(rest, horizon);
    }
  }

  /** `successes1 / successes2`, which raises when router 2 sent nothing. */
  function Fairness(successes1: nat, successes2: nat): (r: Result<real>)
    ensures r.Err? <==> successes2 == 0
    ensures r.Err? ==> r.error == ZeroDivisionError
    ensures r.Ok? ==> r.value * successes2 as real == successes1 as real
    ensures r.Ok? ==> (r.value == 1.0 <==> successes1 == successes2)
  {
    if successes2 == 0 then Err(ZeroDivisionError)
    else Ok(successes1 as real / successes2 as real)
  }

  /** `successes * (numerator / time)` as the simulator computes both
      throughput figures. */
  function Throughput(successes: nat, numerator: nat, time: nat): (t: real)
    requires time >= 1
    ensures t * time as real == (successes * numerator) as real
    ensures t >= 0.0
  {
    successes as real * (numerator as real / time as real)
  }
}

=== FILE: rts_cts.dfy ===
/** The RTS/CTS (virtual carrier sense) variant of the simulator,
    simulation_vcs.py: an unset backoff is the sentinel -1, the loser of a
    contested slot is credited with the winner's backoff, and a successful
    exchange costs RTS, CTS, the data frame and the ACK. */
module RtsCts {
  import opened Contention
  import opened Traffic

  /** The class constants of `Simulation`. `horizon` is `simulation_slots`
      and `txSlots` the transmission time of one packet in slots. */
  datatype Params = Params(
    horizon: int,
    simulationTime: nat,
    packetSize: nat,
    cwBase: nat,
    cwMax: nat,
    difs: nat,
    sifs: nat,
    rts: nat,
    cts: nat,
    ack: nat,
    txSlots: nat)
  {
    /** A non-empty draw range, a positive cost for every exchange, and a
        non-zero divisor for the throughput. */
    predicate Valid() {
      cwBase >= 1 && difs >= 1 && simulationTime >= 1
    }
  }

  /** 10 s of 10 us slots, 8000-bit packets at 8 Mbit/s (100 slots each). */
  const Defaults: Params := Params(1_000_000, 10, 8000, 4, 1024, 4, 1, 2, 2, 2, 100)

  /** The backoff of a router with no backoff drawn. */
  const Unset: int := -1

  /** Slots a collision occupies: the RTS frames collide. */
  function CollisionCost(p: Params, backoff: int): int {
    p.difs + backoff + p.rts + p.sifs + p.cts
  }

  /** `generate_transmission`: slots a successful exchange occupies. */
  function TransmissionCost(p: Params, backoff: int): (c: int)
    ensures c == CollisionCost(p, backoff) + 2 * p.sifs + p.txSlots + p.ack
    ensures p.Valid() && backoff >= 0 ==> c >= 1
  {
    p.difs + backoff + p.rts + p.sifs + p.cts + p.sifs + p.txSlots + p.sifs + p.ack
  }

  /** A backoff is drawn when it is unset or after a collision. */
  predicate NeedsDraw(backoff: int, extension: nat) {
    backoff < 0 || extension != 0
  }

  /** Some router needs a draw this iteration and the window is wider
      than a 64-bit draw allows. */
  predicate DrawOverflows(p: Params, st: State) {
    && (NeedsDraw(st.router1.backoff, st.extension) || NeedsDraw(st.router2.backoff, st.extension))
    && Window(p.cwBase, st.extension) > MaxHigh
  }

  /** The draws at the top of each iteration, router 1 first. */
  function Redraw(p: Params, rng: nat -> nat, st: State): (r: Result<State>)
    requires p.Valid()
    ensures r.Err? <==> DrawOverflows(p, st)
    ensures r.Err? ==> r.error == ValueError
    ensures r.Ok? ==> var d := r.value;
              && d.router1.backoff >= 0 && d.router2.backoff >= 0
              && (NeedsDraw(st.router1.backoff, st.extension) ==>
                    d.router1.backoff < Window(p.cwBase, st.extension))
              && (NeedsDraw(st.router2.backoff, st.extension) ==>
                    d.router2.backoff < Window(p.cwBase, st.extension))
              && (!NeedsDraw(st.router1.backoff, st.extension) ==> d.router1.backoff == st.router1.backoff)
              && (!NeedsDraw(st.router2.backoff, st.extension) ==> d.router2.backoff == st.router2.backoff)
              && d.drawn == st.drawn + (if NeedsDraw(st.router1.backoff, st.extension) then 1 else 0)
                                     + (if NeedsDraw(st.router2.backoff, st.extension) then 1 else 0)
              && d.router1.(backoff := st.router1.backoff) == st.router1
              && d.router2.(backoff := st.router2.backoff) == st.router2
              && d.clock == st.clock && d.extension == st.extension && d.collisions == st.collisions
    // router 1 reads stream position `drawn`; router 2 reads the next one left
    ensures r.Ok? && NeedsDraw(st.router1.backoff, st.extension) ==>
              GenerateBackoff(p.cwBase, rng, st.drawn, st.extension) == Ok(r.value.router1.backoff)
    ensures r.Ok? && NeedsDraw(st.router2.backoff, st.extension) ==>
              var k := st.drawn + (if NeedsDraw(st.router1.backoff, st.extension) then 1 else 0);
              GenerateBackoff(p.cwBase, rng, k, st.extension) == Ok(r.value.router2.backoff)
  {
    var draw1 := NeedsDraw(st.router1.backoff, st.extension);
    var first := if draw1 then GenerateBackoff(p.cwBase, rng, st.drawn, st.extension) else Ok(st.router1.backoff);
    match first
    case Err(e) => Err(e)
    case Ok(b1) =>
      var k := if draw1 then st.drawn + 1 else st.drawn;
      var draw2 := NeedsDraw(st.router2.backoff, st.extension);
      var second := if draw2 then GenerateBackoff(p.cwBase, rng, k, st.extension) else Ok(st.router2.backoff);
      match second
      case Err(e) => Err(e)
      case Ok(b2) =>
        var k' := if draw2 then k + 1 else k;
        Ok(st.(router1 := st.router1.(backoff := b1), router2 := st.router2.(backoff := b2), drawn := k'))
  }

  /** One iteration of the `start_simulation` loop. The draws come first
      and raise on a window too wide for them; then reading either
      router's schedule past its end raises. */
  function Step(p: Params, rng: nat -> nat, st: State): (r: Result<State>)
    requires p.Valid()
    ensures r.Err? <==> DrawOverflows(p, st) || !st.InBounds()
    ensures r.Err? ==> r.error == (if DrawOverflows(p, st) then ValueError else IndexError)
    ensures r.Ok? ==> Redraw(p, rng, st).Ok?
    ensures r.Ok? ==> r.value.clock > st.clock
    ensures r.Ok? ==> && StepsPast(st.router1, r.value.router1, st.clock)
                      && StepsPast(st.router2, r.value.router2, st.clock)
    ensures r.Ok? ==> r.value.router1.slotIndex + r.value.router2.slotIndex
                      <= st.router1.slotIndex + st.router2.slotIndex + 1
    ensures r.Ok? ==> r.value.router1.backoff >= Unset && r.value.router2.backoff >= Unset
    ensures r.Ok? ==> r.value.drawn == Redraw(p, rng, st).value.drawn
    // collision: both routers keep their packets and their (equal) drawn backoffs
    ensures r.Ok? && Arbitration(Redraw(p, rng, st).value) == Collision ==>
              var d := Redraw(p, rng, st).value;
              && r.value.collisions == st.collisions + 1
              && r.value.extension == st.extension + 1
              && r.value.router1 == d.router1
              && r.value.router2 == d.router2
              && r.value.router1.backoff == r.value.router2.backoff
              && r.value.clock == st.clock + CollisionCost(p, d.router1.backoff)
    // router 1 wins: the loser counts down by the winner's backoff
    ensures r.Ok? && Arbitration(Redraw(p, rng, st).value) == Win1 ==>
              var d := Redraw(p, rng, st).value;
              && r.value.router1.slotIndex == st.router1.slotIndex + 1
              && r.value.router2.slotIndex == st.router2.slotIndex
              && r.value.router1.backoff == Unset
              && r.value.router2.backoff == d.router2.backoff - d.router1.backoff > 0
              && r.value.extension == 0
              && r.value.collisions == st.collisions
              && r.value.clock == st.clock + TransmissionCost(p, d.router1.backoff)
    ensures r.Ok? && Arbitration(Redraw(p, rng, st).value) == Win2 ==>
              var d := Redraw(p, rng, st).value;
              && r.value.router2.slotIndex == st.router2.slotIndex + 1
              && r.value.router1.slotIndex == st.router1.slotIndex
              && r.value.router2.backoff == Unset
              && r.value.router1.backoff == d.router1.backoff - d.router2.backoff > 0
              && r.value.extension == 0
              && r.value.collisions == st.collisions
              && r.value.clock == st.clock + TransmissionCost(p, d.router2.backoff)
    // only one router ready: it sends, the other is left as drawn
    ensures r.Ok? && Arbitration(Redraw(p, rng, st).value) == Solo1 ==>
              var d := Redraw(p, rng, st).value;
              && r.value.router1.slotIndex == st.router1.slotIndex + 1
              && r.value.router1.backoff == Unset
              && r.value.router2 == d.router2
              && r.value.extension == st.extension
              && r.value.collisions == st.collisions
              && r.value.clock == st.clock + TransmissionCost(p, d.router1.backoff)
    ensures r.Ok? && Arbitration(Redraw(p, rng, st).value) == Solo2 ==>
              var d := Redraw(p, rng, st).value;
              && r.value.router2.slotIndex == st.router2.slotIndex + 1
              && r.value.router2.backoff == Unset
              && r.value.router1 == d.router1
              && r.value.extension == st.extension
              && r.value.collisions == st.collisions
              && r.value.clock == st.clock + TransmissionCost(p, d.router2.backoff)
    // idle: one slot passes and nothing else changes
    ensures r.Ok? && Arbitration(Redraw(p, rng, st).value) == Idle ==>
              r.value == Redraw(p, rng, st).value.(clock := st.clock + 1)
  {
    match Redraw(p, rng, st)
    case Err(e) => Err(e)
    case Ok(d) =>
      if !st.InBounds() then Err(IndexError)
      else
        var b1 := d.router1.backoff;
        var b2 := d.router2.backoff;
        match Arbitration(d)
        case Collision =>
          Ok(d.(clock := d.clock + CollisionCost(p, b1),
                extension := d.extension + 1,
                collisions := d.collisions + 1))
        case Win1 =>
          Ok(d.(clock := d.clock + TransmissionCost(p, b1),
                router1 := d.router1.(slotIndex := d.router1.slotIndex + 1, backoff := Unset),
                router2 := d.router2.(backoff := b2 - b1),
                extension := 0))
        case Win2 =>
          Ok(d.(clock := d.clock + TransmissionCost(p, b2),
                router2 := d.router2.(slotIndex := d.router2.slotIndex + 1, backoff := Unset),
                router1 := d.router1.(backoff := b1 - b2),
                extension := 0))
        case Solo1 =>
          Ok(d.(clock := d.clock + TransmissionCost(p, b1),
                router1 := d.router1.(slotIndex := d.router1.slotIndex + 1, backoff := Unset)))
        case Solo2 =>
          Ok(d.(clock := d.clock + TransmissionCost(p, b2),
                router2 := d.router2.(slotIndex := d.router2.slotIndex + 1, backoff := Unset)))
        case Idle =>
          Ok(d.(clock := d.clock + 1))
  }

  /** The loop: iterate while the clock is below the horizon. */
  function Run(p: Params, rng: nat -> nat, st: State): (r: Result<State>)
    requires p.Valid()
    ensures st.clock >= p.horizon ==> r == Ok(st)
    ensures r.Err? ==> r.error == IndexError || r.error == ValueError
    ensures r.Ok? ==> r.value.clock >= p.horizon && r.value.clock >= st.clock
    ensures r.Ok? ==> && r.value.router1.arrivals == st.router1.arrivals
                      && r.value.router2.arrivals == st.router2.arrivals
    ensures r.Ok? ==> && st.router1.slotIndex <= r.value.router1.slotIndex
                      && st.router2.slotIndex <= r.value.router2.slotIndex
    ensures r.Ok? ==> && (st.router1.HasNext() ==> r.value.router1.slotIndex <= |st.router1.arrivals|)
                      && (st.router2.HasNext() ==> r.value.router2.slotIndex <= |st.router2.arrivals|)
    ensures r.Ok? ==> st.collisions <= r.value.collisions
    decreases p.horizon - st.clock
  {
    if st.clock >= p.horizon then Ok(st)
    else
      match Step(p, rng, st)
      case Err(e) => Err(e)
      case Ok(next) => Run(p, rng, next)
  }

  /** Two fresh routers and the clock at the earlier first arrival. */
  function Start(arrivals1: seq<int>, arrivals2: seq<int>): (r: Result<State>)
    ensures r.Err? <==> |arrivals1| == 0 || |arrivals2| == 0
    ensures r.Err? ==> r.error == IndexError
    ensures r.Ok? ==> r.value.clock <= arrivals1[0] && r.value.clock <= arrivals2[0]
    ensures r.Ok? ==> r.value.clock == arrivals1[0] || r.value.clock == arrivals2[0]
    ensures r.Ok? ==> && r.value.router1 == Router(arrivals1, 0, Unset)
                      && r.value.router2 == Router(arrivals2, 0, Unset)
                      && r.value.extension == 0 && r.value.collisions == 0
                      && r.value.drawn == 0
  {
    if |arrivals1| == 0 || |arrivals2| == 0 then Err(IndexError)
    else
      var clock := if arrivals1[0] <= arrivals2[0] then arrivals1[0] else arrivals2[0];
      Ok(State(clock, Router(arrivals1, 0, Unset), Router(arrivals2, 0, Unset), 0, 0, 0))
  }

  /** The metrics of one rate. */
  datatype Report = Report(collisions: nat, successes1: nat, successes2: nat,
                           throughput1: real, throughput2: real, fairness: real)

  function Metrics(p: Params, final: State): (r: Result<Report>)
    requires p.Valid()
    ensures r.Err? <==> final.router2.slotIndex == 0
    ensures r.Err? ==> r.error == ZeroDivisionError
    ensures r.Ok? ==> && r.value.successes1 == final.router1.slotIndex
                      && r.value.successes2 == final.router2.slotIndex
                      && r.value.collisions == final.collisions
    ensures r.Ok? ==> r.value.throughput1 * p.simulationTime as real
                      == (final.router1.slotIndex * p.packetSize) as real
    ensures r.Ok? ==> r.value.throughput2 * p.simulationTime as real
                      == (final.router2.slotIndex * p.packetSize) as real
    ensures r.Ok? ==> r.value.fairness * r.value.successes2 as real == r.value.successes1 as real
  {
    var successes1 := final.router1.slotIndex;
    var successes2 := final.router2.slotIndex;
    match Fairness(successes1, successes2)
    case Err(e) => Err(e)
    case Ok(f) =>
      Ok(Report(final.collisions, successes1, successes2,
                Throughput(successes1, p.packetSize, p.simulationTime),
                Throughput(successes2, p.packetSize, p.simulationTime), f))
  }

  /** `start_simulation` for two given schedules: an empty schedule
      raises at once, the loop may raise, and otherwise the metrics of the
      final state are reported, which raise when router 2 sent nothing. */
  function Simulate(p: Params, rng: nat -> nat, arrivals1: seq<int>, arrivals2: seq<int>): (r: Result<Report>)
    requires p.Valid()
    ensures |arrivals1| == 0 || |arrivals2| == 0 ==> r == Err(IndexError)
    ensures |arrivals1| > 0 && |arrivals2| > 0 ==>
              var run := Run(p, rng, Start(arrivals1, arrivals2).value);
              && (run.Err? ==> r == Err(run.error))
              && (run.Ok? ==> r == Metrics(p, run.value))
    ensures r.Err? ==> r.error == IndexError || r.error == ValueError || r.error == ZeroDivisionError
    ensures r.Ok? ==> && 0 < r.value.successes2 <= |arrivals2|
                      && r.value.successes1 <= |arrivals1|
  {
    match Start(arrivals1, arrivals2)
    case Err(e) => Err(e)
    case Ok(st) =>
      match Run(p, rng, st)
      case Err(e) => Err(e)
      case Ok(final) => Metrics(p, final)
  }

  /** `generate_traffic`: the running sum of `rate * simulationTime` gaps,
      followed by as many entries equal to the horizon. */
  function GenerateTraffic(p: Params, rate: nat, gaps: seq<nat>): (s: seq<int>)
    requires |gaps| == rate * p.simulationTime
    ensures |s| == 2 * |gaps|
    ensures IsSchedule(s[..|gaps|]) && Gaps(s[..|gaps|]) == gaps
    ensures forall j :: |gaps| <= j < |s| ==> s[j] == p.horizon
  {
    GapsOfCumSum(gaps);
    CumSum(gaps) + seq(|gaps|, _ => p.horizon)
  }
}

=== FILE: rts_cts_props.dfy ===
/** Properties of whole runs of the RTS/CTS loop: the invariants each
    iteration keeps, and what they give for a trial on generated traffic. */
module RtsCtsProperties {
  import opened Contention
  import opened Traffic
  import opened RtsCts

  /** After a collision both routers draw again, from a window twice as
      wide as the one the colliding backoffs came from. */
  lemma CollisionWidensWindow(p: Params, rng: nat -> nat, st: State)
    requires p.Valid()
    requires st.InBounds()
    requires Redraw(p, rng, st).Ok? && Arbitration(Redraw(p, rng, st).value) == Collision
    ensures Step(p, rng, st).Ok?
    ensures var next := Step(p, rng, st).value;
            && NeedsDraw(next.router1.backoff, next.extension)
            && NeedsDraw(next.router2.backoff, next.extension)
            && Window(p.cwBase, next.extension) == 2 * Window(p.cwBase, st.extension)
  {
    WindowDoubles(p.cwBase, st.extension);
  }

  /** A collision keeps both packets waiting and a success resets the
      extension, so an iteration keeps `ExtensionNeedsBoth`. */
  lemma StepKeepsExtensionNeedsBoth(p: Params, rng: nat -> nat, st: State)
    requires p.Valid()
    requires ExtensionNeedsBoth(st)
    ensures Step(p, rng, st).Ok? ==> ExtensionNeedsBoth(Step(p, rng, st).value)
  {
    var r := Step(p, rng, st);
    if r.Ok? && Arbitration(Redraw(p, rng, st).value) == Collision {
      var next := r.value;
      assert next.router1.arrivals == st.router1.arrivals;
      assert next.router2.arrivals == st.router2.arrivals;
    }
  }

  /** While the extension is positive, an iteration is a collision or a
      contested win: the single-router and idle branches, which leave the
      extension alone, only ever run with the extension at 0. */
  lemma ExtensionMeansContention(p: Params, rng: nat -> nat, st: State)
    requires p.Valid()
    requires ExtensionNeedsBoth(st) && st.extension > 0
    ensures Redraw(p, rng, st).Ok? ==>
              var b := Arbitration(Redraw(p, rng, st).value); b == Collision || b == Win1 || b == Win2
  {
  }

  lemma {:induction false} RunKeepsExtensionNeedsBoth(p: Params, rng: nat -> nat, st: State)
    requires p.Valid()
    requires ExtensionNeedsBoth(st)
    ensures Run(p, rng, st).Ok? ==> ExtensionNeedsBoth(Run(p, rng, st).value)
    decreases p.horizon - st.clock
  {
    if st.clock < p.horizon {
      StepKeepsExtensionNeedsBoth(p, rng, st);
      var r := Step(p, rng, st);
      if r.Ok? {
        RunKeepsExtensionNeedsBoth(p, rng, r.value);
      }
    }
  }

  /** With both schedules padded at the horizon from index n1 and n2 on,
      the loop never reads past the end and never sends a padding entry:
      the only exception it can raise is the draw's ValueError. */
  lemma {:induction false} RunStaysInPaddedSchedules(p: Params, rng: nat -> nat, st: State, n1: nat, n2: nat)
    requires p.Valid()
    requires PaddedFrom(st.router1, n1, p.horizon) && PaddedFrom(st.router2, n2, p.horizon)
    requires st.router1.slotIndex <= n1 && st.router2.slotIndex <= n2
    ensures Run(p, rng, st).Err? ==> Run(p, rng, st).error == ValueError
    ensures Run(p, rng, st).Ok? ==> && Run(p, rng, st).value.router1.slotIndex <= n1
                                    && Run(p, rng, st).value.router2.slotIndex <= n2
    decreases p.horizon - st.clock
  {
    if st.clock < p.horizon {
      var r := Step(p, rng, st);
      if r.Ok? {
        var next := r.value;
        PaddingKept(st.router1, next.router1, st.clock, n1, p.horizon);
        PaddingKept(st.router2, next.router2, st.clock, n2, p.horizon);
        RunStaysInPaddedSchedules(p, rng, next, n1, n2);
      }
    }
  }

  /** Every packet a run sends had arrived before the horizon. */
  lemma {:induction false} RunSendsOnlyBeforeHorizon(p: Params, rng: nat -> nat, st: State)
    requires p.Valid()
    requires SentBefore(st.router1, p.horizon) && SentBefore(st.router2, p.horizon)
    ensures Run(p, rng, st).Ok? ==>
              && SentBefore(Run(p, rng, st).value.router1, p.horizon)
              && SentBefore(Run(p, rng, st).value.router2, p.horizon)
    decreases p.horizon - st.clock
  {
    if st.clock < p.horizon {
      var r := Step(p, rng, st);
      if r.Ok? {
        SentBeforeKept(st.router1, r.value.router1, st.clock, p.horizon);
        SentBeforeKept(st.router2, r.value.router2, st.clock, p.horizon);
        RunSendsOnlyBeforeHorizon(p, rng, r.value);
      }
    }
  }

  /** A trial on schedules padded at the horizon from index n1 and n2 on
      never reads past a schedule: it can only fail in a draw or on the
      fairness division. Each router's successes are bounded by its
      entries before the padding, and by those of its arrivals that came
      before the horizon. */
  lemma SimulateOnPaddedSchedules(p: Params, rng: nat -> nat, s1: seq<int>, s2: seq<int>, n1: nat, n2: nat)
    requires p.Valid()
    requires PaddedFrom(Router(s1, 0, Unset), n1, p.horizon)
    requires PaddedFrom(Router(s2, 0, Unset), n2, p.horizon)
    ensures var r := Simulate(p, rng, s1, s2);
            && (r.Err? ==> r.error == ValueError || r.error == ZeroDivisionError)
            && (r.Ok? ==> && r.value.successes1 <= n1
                          && r.value.successes2 <= n2
                          && r.value.successes1 <= CountBelow(s1, p.horizon)
                          && r.value.successes2 <= CountBelow(s2, p.horizon))
  {
    var st := Start(s1, s2).value;
    RunStaysInPaddedSchedules(p, rng, st, n1, n2);
    RunSendsOnlyBeforeHorizon(p, rng, st);
    if Run(p, rng, st).Ok? {
      var final := Run(p, rng, st).value;
      SentWithinCount(final.router1, p.horizon);
      SentWithinCount(final.router2, p.horizon);
      assert Simulate(p, rng, s1, s2) == Metrics(p, final);
    }
  }

  /** `generate_traffic` draws at least one sample per positive rate, and
      its padding starts right after the real arrivals. */
  lemma GeneratedTrafficIsPadded(p: Params, rate: nat, gaps: seq<nat>)
    requires p.Valid()
    requires |gaps| == rate * p.simulationTime && rate >= 1
    ensures PaddedFrom(Router(GenerateTraffic(p, rate, gaps), 0, Unset), |gaps|, p.horizon)
  {
    SamplesDrawn(rate, p.simulationTime);
  }

  lemma SamplesDrawn(rate: nat, time: nat)
    requires rate >= 1 && time >= 1
    ensures rate * time >= 1
  {
    var extra: nat := (rate - 1) * time;
    assert rate * time == time + extra;
  }

  /** A trial on two generated schedules never reads past their end and
      sends only real arrivals; it can still raise in a draw or on the
      fairness division. */
  lemma SimulateOnGeneratedTraffic(p: Params, rng: nat -> nat, rate: nat, gaps1: seq<nat>, gaps2: seq<nat>)
    requires p.Valid()
    requires |gaps1| == rate * p.simulationTime && |gaps2| == rate * p.simulationTime
    requires rate >= 1
    ensures var r := Simulate(p, rng, GenerateTraffic(p, rate, gaps1), GenerateTraffic(p, rate, gaps2));
            && (r.Err? ==> r.error == ValueError || r.error == ZeroDivisionError)
            && (r.Ok? ==> r.value.successes1 <= |gaps1| && r.value.successes2 <= |gaps2|)
  {
    GeneratedTrafficIsPadded(p, rate, gaps1);
    GeneratedTrafficIsPadded(p, rate, gaps2);
    SimulateOnPaddedSchedules(p, rng, GenerateTraffic(p, rate, gaps1), GenerateTraffic(p, rate, gaps2), |gaps1|, |gaps2|);
  }

  /** With the code's constants the draw raises exactly once the
      extension reaches 62: a run raises ValueError only after 62
      consecutive collisions. */
  lemma DrawOverflowsAfter62Collisions(st: State)
    ensures DrawOverflows(Defaults, st) <==> st.extension >= 62
  {
    DrawOverflowsAt62(st.extension);
  }

  /** The stream is no restriction: whatever in-range backoffs b1 and b2
      are wanted, some stream makes the routers that draw get exactly
      those, router 1 first. */
  lemma AnyDrawsPossible(p: Params, st: State, b1: nat, b2: nat)
    requires p.Valid() && !DrawOverflows(p, st)
    requires b1 < Window(p.cwBase, st.extension) && b2 < Window(p.cwBase, st.extension)
    ensures var draw1 := NeedsDraw(st.router1.backoff, st.extension);
            var r := Redraw(p, Scripted(st.drawn, if draw1 then b1 else b2, b2), st);
            && r.Ok?
            && (draw1 ==> r.value.router1.backoff == b1)
            && (NeedsDraw(st.router2.backoff, st.extension) ==> r.value.router2.backoff == b2)
  {
    var draw1 := NeedsDraw(st.router1.backoff, st.extension);
    var draw2 := NeedsDraw(st.router2.backoff, st.extension);
    var rng := Scripted(st.drawn, if draw1 then b1 else b2, b2);
    var w := Window(p.cwBase, st.extension);
    if draw1 || draw2 {
      ScriptedDraws(rng, st.drawn, if draw1 then b1 else b2, b2, w);
    }
    if draw1 {
      assert GenerateBackoff(p.cwBase, rng, st.drawn, st.extension) == Ok(b1);
      if draw2 {
        assert GenerateBackoff(p.cwBase, rng, st.drawn + 1, st.extension) == Ok(b2);
      }
    } else if draw2 {
      assert GenerateBackoff(p.cwBase, rng, st.drawn, st.extension) == Ok(b2);
    }
  }

  /** `cw_max` bounds nothing: once the window is wider than `cw_max`
      (and still within a 64-bit draw), a collision can be followed by
      backoffs of `cw_max` or more. */
  lemma DrawsPastCwMax(p: Params, st: State)
    requires p.Valid() && st.extension > 0
    requires p.cwMax < Window(p.cwBase, st.extension) <= MaxHigh
    ensures var r := Redraw(p, Scripted(st.drawn, p.cwMax, p.cwMax), st);
            r.Ok? && r.value.router1.backoff >= p.cwMax && r.value.router2.backoff >= p.cwMax
  {
    var rng := Scripted(st.drawn, p.cwMax, p.cwMax);
    ScriptedDraws(rng, st.drawn, p.cwMax, p.cwMax, Window(p.cwBase, st.extension));
    assert GenerateBackoff(p.cwBase, rng, st.drawn, st.extension) == Ok(p.cwMax);
    assert GenerateBackoff(p.cwBase, rng, st.drawn + 1, st.extension) == Ok(p.cwMax);
  }
}

=== FILE: traffic.dfy ===
/** Arrival schedules as running sums of inter-arrival gaps. Both variants
    turn sampled gaps (already rounded up to whole slots, so never
    negative) into absolute arrival slots with a cumulative sum; the
    sampling itself is not modelled, the gaps are given. */
module Traffic {

  predicate NonDecreasing(s: seq<int>) {
    forall i, j :: 0 <= i <= j < |s| ==> s[i] <= s[j]
  }

  /** A sequence that a cumulative sum of non-negative gaps can produce. */
  predicate IsSchedule(s: seq<int>) {
    NonDecreasing(s) && (|s| > 0 ==> s[0] >= 0)
  }

  /** `cumsum(gaps)`: entry i is the sum of the first i + 1 gaps. */
  function CumSum(gaps: seq<nat>): (s: seq<int>)
    ensures |s| == |gaps|
    ensures |gaps| > 0 ==> s[0] == gaps[0]
    ensures forall i :: 0 < i < |s| ==> s[i] == s[i - 1] + gaps[i]
    ensures IsSchedule(s)
  {
    if |gaps| == 0 then []
    else
      var prefix := CumSum(gaps[..|gaps| - 1]);
      var last := if |prefix| == 0 then 0 else prefix[|prefix| - 1];
      prefix + [last + gaps[|gaps| - 1]]
  }

  /** The inverse of `CumSum`: the first entry, then the differences of
      neighbouring entries. */
  function Gaps(s: seq<int>): (gaps: seq<nat>)
    requires IsSchedule(s)
    ensures |gaps| == |s|
  {
    if |s| == 0 then []
    else
      var last: nat := if |s| == 1 then s[0] else s[|s| - 1] - s[|s| - 2];
      Gaps(s[..|s| - 1]) + [last]
  }

  /** Dropping the last gap drops the last entry of the running sum. */
  lemma {:induction false} CumSumPrefix(gaps: seq<nat>)
    requires |gaps| > 0
    ensures CumSum(gaps)[..|gaps| - 1] == CumSum(gaps[..|gaps| - 1])
  {
    var prefix := CumSum(gaps[..|gaps| - 1]);
    var last := if |prefix| == 0 then 0 else prefix[|prefix| - 1];
    var whole := prefix + [last + gaps[|gaps| - 1]];
    assert CumSum(gaps) == whole;
    assert whole[..|prefix|] == prefix;
  }

  /** Dropping the last entry of a schedule drops its last gap. */
  lemma {:induction false} GapsPrefix(s: seq<int>)
    requires IsSchedule(s) && |s| > 0
    ensures IsSchedule(s[..|s| - 1])
    ensures Gaps(s)[..|s| - 1] == Gaps(s[..|s| - 1])
  {
    var last: nat := if |s| == 1 then s[0] else s[|s| - 1] - s[|s| - 2];
    assert Gaps(s) == Gaps(s[..|s| - 1]) + [last];
  }

  /** Summing gaps and taking differences again gives back the gaps. */
  lemma {:induction false} GapsOfCumSum(gaps: seq<nat>)
    ensures Gaps(CumSum(gaps)) == gaps
  {
    if |gaps| > 0 {
      var front := gaps[..|gaps| - 1];
      var s := CumSum(gaps);
      CumSumPrefix(gaps);
      GapsOfCumSum(front);
      GapsPrefix(s);
      var g := Gaps(s);
      assert g[..|g| - 1] == front;
      assert g[|g| - 1] == gaps[|gaps| - 1];
      assert g == g[..|g| - 1] + [g[|g| - 1]];
      assert gaps == front + [gaps[|gaps| - 1]];
    }
  }

  /** Every schedule is the cumulative sum of its gaps: a non-decreasing
      sequence of non-negative slots is exactly what the generators can
      produce. */
  lemma {:induction false} CumSumOfGaps(s: seq<int>)
    requires IsSchedule(s)
    ensures CumSum(Gaps(s)) == s
  {
    if |s| > 0 {
      var front := s[..|s| - 1];
      var g := Gaps(s);
      GapsPrefix(s);
      CumSumOfGaps(front);
      CumSumPrefix(g);
      var c := CumSum(g);
      assert c[..|c| - 1] == front;
      assert c[|c| - 1] == s[|s| - 1];
      assert c == c[..|c| - 1] + [c[|c| - 1]];
      assert s == front + [s[|s| - 1]];
    }
  }
}
